=== FILE: README.md ===
# Lispy evaluator core in Dafny

A model of the value type and tree-walking evaluator of an early revision of
the Lispy interpreter (`main.c`). This revision has no environments and no
user functions. A value (`lval`) is an error, a number, a symbol, an
S-expression or a Q-expression. Evaluation reduces S-expressions:

- every child is evaluated first;
- the first error among the children becomes the result;
- `()` evaluates to itself, and a one-element list to its evaluated element;
- otherwise the head must be a symbol naming one of the builtins `list`,
  `head`, `tail`, `join`, `eval`, `+ - * /`.

Every other value evaluates to itself, symbols included.

Modules, following the structure of `main.c`:

- `Values` (values.dfy): the `Lval` datatype and the tree-size measure.
- `Cells` (cells.dfy): `lval_add`, `lval_pop`, `lval_take`, `lval_join` as
  pure functions on list values.
- `Arith` (arith.dfy): C's truncating `long` division.
- `Builtins` (builtins.dfy): `head`, `tail`, `list`, `join` and the
  arithmetic fold, each checking its arguments and answering an error value.
- `Evaluator` (evaluator.dfy): the dispatcher `builtin`, the re-entrant
  `builtin_eval`, `lval_eval` and `lval_eval_sexpr`.
- `Decimal` and `Printer` (printer.dfy): `lval_print` / `lval_print_expr` as
  functions returning a string, and the decimal format of numbers.
- `Scenarios` (scenarios.dfy): whole expressions worked through the model.

Termination of the evaluator is proved with the pair (tree size, rank).
`eval` re-enters the evaluator on an already evaluated argument, so the
recursive group carries the invariant that evaluation never grows a tree
(`Size(Eval(v)) <= Size(v)`). It also carries the invariant that a result
is never a non-empty S-expression, which makes evaluation idempotent.

Later revisions of the interpreter add environments, `def`, `=`, `fun`,
closures and function values. This model follows this revision of `main.c`
and has none of them: symbols are not looked up, a call's head must be a
symbol, and errors carry the literal C messages, such as "S-expression does
not start with symbol!".

## Model

| member | source | states |
|---|---|---|
| Cells.Add | main.c:79-84 | appending keeps the list's tag, grows it by one, puts `x` last and leaves every earlier cell in place |
| Cells.Pop | main.c:86-92 | popping returns cell `i`, shortens the list by one, keeps cells before `i` and shifts the later ones down by one, in order |
| Cells.Take | main.c:94-98 | take answers cell `i` of the container it consumes |
| Cells.Join | main.c:116-122 | the pop-front/append loop yields the first list's cells followed by all of the second's, with the first list's tag |
| Cells.AddThenPopLast | main.c:79-92 | popping the cell just appended gives back that cell and the original list |
| Cells.PopThenReinsert | main.c:86-92 | reinserting a popped cell at its index restores the list, so pop loses nothing and keeps order |
| Arith.CDiv | main.c:272 | the quotient of C `/` leaves a remainder with the dividend's sign, smaller in magnitude than the divisor |
| Arith.CDivUnique | main.c:272 | that remainder condition determines the quotient uniquely, so CDiv is exactly truncated division |
| Arith.CDivSign | main.c:272 | C's quotient is the quotient of the magnitudes, negative exactly when the operands' signs differ |
| Arith.CDivBound | main.c:272 | a truncated quotient is never larger in magnitude than the dividend |
| Arith.CDivCDiv | main.c:262-272 | dividing by `b` and then by `c` is dividing once by `b * c`, so successive divisors compose into their product |
| Arith.CDivExamples | main.c:272 | truncation differs from Euclidean division on negative operands, e.g. -7/2 is -3, not -4 |
| Builtins.KeepFirst | main.c:203-205 | repeatedly popping cell 1 leaves exactly the first cell |
| Builtins.Head | main.c:197-207 | `head` rejects, in this order, a count other than 1, a non-Q-expression and `{}`, each with its own message; otherwise it answers a Q-expression of the first element only |
| Builtins.Tail | main.c:209-217 | `tail` has the same three rejections with its own messages; otherwise it answers a Q-expression of the remaining elements in order |
| Builtins.HeadTailSplit | main.c:197-244 | on a non-empty Q-expression, head's cells followed by tail's are the original cells, and joining head and tail gives it back |
| Builtins.List | main.c:219-222 | `list` only changes the tag to Q-expression; the cells are the arguments unchanged |
| Builtins.JoinFrom | main.c:238-241 | folding `lval_join` over the remaining arguments appends all their cells, in argument order, to the first |
| Builtins.JoinArgs | main.c:233-244 | `join` of Q-expressions is the Q-expression of all their cells in argument order; any other argument gives "Function 'join' passed incorrect types!" |
| Builtins.Step | main.c:263-272 | one step of the fold; `/` yields the truncated quotient (the magnitudes' quotient, negative only for operands of opposite sign, never larger in magnitude than `x`), and an operator string that is none of the four leaves `x` unchanged |
| Builtins.AllQExpr | main.c:234-236 | the condition the `join` type-check loop enforces: every argument is a Q-expression |
| Builtins.AllNum | main.c:247-252 | the condition the `op` type-check loop enforces: every argument is a number |
| Builtins.Fold | main.c:260-275 | the arithmetic loop ends in a number, or in "Division by zero!" |
| Builtins.Op | main.c:246-278 | a non-number argument gives "Cannot operate on non-number"; a lone argument to `-` is negated; every result is a number or one of the two errors |
| Builtins.FoldAdd | main.c:260-263 | folding `+` adds the sum of the remaining numbers to the first |
| Builtins.FoldSub | main.c:260-264 | folding `-` subtracts the sum of the remaining numbers from the first |
| Builtins.FoldMul | main.c:260-265 | folding `*` multiplies the first number by the product of the others |
| Builtins.FoldDivZero | main.c:266-271 | folding `/` gives the division error if and only if some divisor is zero |
| Builtins.FoldDiv | main.c:260-275 | folding `/` over non-zero divisors gives the first number divided, truncating, by their product |
| Builtins.FoldOther | main.c:260-275 | an operator string that is none of the four leaves the first number unchanged |
| Builtins.OpIsFold | main.c:254-275 | apart from unary minus, the result is the left-to-right fold starting from the first argument |
| Builtins.OpAdd | main.c:246-278 | `+` on numbers is their sum |
| Builtins.OpMul | main.c:246-278 | `*` on numbers is their product |
| Builtins.OpSub | main.c:246-278 | `-` on two or more numbers is the first minus the sum of the rest |
| Builtins.OpDiv | main.c:246-278 | `/` on numbers fails exactly when some argument after the first is zero |
| Builtins.OpDivValue | main.c:246-278 | `/` on numbers with no zero divisor is the first number divided, truncating toward zero, by the product of the others |
| Evaluator.Builtin | main.c:280-289 | dispatch never grows the tree and always answers a normal form |
| Evaluator.BuiltinEval | main.c:224-231 | `eval` rejects a count other than 1, then a non-Q-expression, each with its own message; its result is a normal form no larger than its argument |
| Evaluator.BuiltinEvalMeaning | main.c:224-231 | `eval` of one Q-expression is the evaluation of its cells re-tagged as an S-expression |
| Evaluator.Eval | main.c:319-324 | numbers, errors, symbols and Q-expressions evaluate to themselves; no result is larger than its input or is a non-empty S-expression |
| Evaluator.EvalAll | main.c:294-296 | evaluating the children keeps their count, grows nothing and leaves every child in normal form |
| Evaluator.EvalAllPointwise | main.c:294-296 | each child is evaluated on its own |
| Evaluator.FirstErrorFrom | main.c:298-302 | the scan finds the first erroneous child, or reports that there is none |
| Evaluator.EvalSExpr | main.c:293-317 | reducing an S-expression never grows the tree and answers a normal form |
| Evaluator.EvalErrorPropagates | main.c:293-302 | if the `i`-th child is the first to evaluate to an error, the S-expression evaluates to that error |
| Evaluator.EvalShapes | main.c:304-312 | with no erroneous child: `()` stays `()`, a singleton is its evaluated child, a longer list without a symbol head is "S-expression does not start with symbol!" |
| Evaluator.EvalCall | main.c:308-316 | with no erroneous child and a symbol head, the named builtin is applied to the other evaluated children |
| Evaluator.EvalCallOnValues | main.c:293-317 | a symbol applied to arguments that are already non-error values calls the named builtin on exactly those arguments |
| Evaluator.EvalIdempotent | main.c:319-324 | evaluating a result again changes nothing |
| Evaluator.EvalIdempotentOnNormal | main.c:319-324 | a value that is not a non-empty S-expression evaluates to itself |
| Evaluator.EvalAllNormal | main.c:294-296 | children already in normal form are unchanged by evaluation |
| Evaluator.ListThenEval | main.c:219-231 | `eval` applied to the result of `list` is the evaluation of the S-expression of the same arguments |
| Evaluator.IsSubstring | main.c:286 | the `strstr` test, written recursively over the suffixes of the searched text |
| Evaluator.SubstringAt | main.c:286 | the recursive test holds exactly when the pattern is a prefix of some suffix, i.e. occurs at some position, as `strstr` answers |
| Evaluator.SubstringChars | main.c:286 | every character of a `strstr` match occurs in the searched text |
| Evaluator.DispatchExact | main.c:280-289 | a symbol that is none of the five names gives "Unknown function!" if and only if it does not occur in the text `+-/*`; every symbol that does occur goes to the arithmetic builtin |
| Evaluator.DispatchUnknown | main.c:280-289 | in particular, a symbol that is none of the five names and has a character other than `+ - / *` gives "Unknown function!" |
| Evaluator.NonOperatorSubstrings | main.c:286 | `**`, `*+` and `//`, though made of operator characters, fail the `strstr` test |
| Evaluator.DispatchArithmetic | main.c:286 | the four operator symbols reach the arithmetic builtin, and so does `+-`, which answers the first number |
| Evaluator.OperatorSubstrings | main.c:286 | `+`, `-`, `*`, `/` and `+-` all pass the `strstr` test |
| Evaluator.ScanAsWritten | main.c:298-302 | the error scan as written never lengthens the list, invents no cell, keeps every non-error cell and leaves the cells before the starting index untouched; it drops each erroneous cell it inspects, but an error that shifts into a removed cell's slot is skipped and kept |
| Evaluator.ScanAsWrittenNoError | main.c:298-302 | with no error present, the as-written scan changes nothing |
| Evaluator.ScanAsWrittenDropsLoneError | main.c:298-302 | a lone error disappears under the as-written scan, leaving no error at all, while the intended scan finds it |
| Evaluator.ScanLoneFrom | main.c:298-302 | the as-written scan removes exactly the lone erroneous cell |
| Evaluator.ScanAsWrittenKeepsNextError | main.c:298-302 | of two adjacent errors, the as-written scan keeps the second, while the intended result is the first |
| Decimal.NatToString | main.c:184 | the decimal digits of a natural number, never with a leading zero |
| Decimal.IntToString | main.c:184 | `%li` text has a leading minus exactly for negative numbers, then at least one digit; zero is `0` and no other number starts its digits with `0` |
| Decimal.NatToStringParse | main.c:184 | digits with no leading zero are exactly the printed text of their value |
| Decimal.CanonicalNumeralUnique | main.c:184 | every numeral with no leading zero and no `-0` is the printed text of the number it denotes, so each number has exactly one printed form |
| Decimal.ParseNatToString | main.c:184 | reading back the digits of a natural number gives the number |
| Decimal.ParseIntToString | main.c:126-131 | base-10 `strtol` reads back exactly the number `%li` printed |
| Printer.Print | main.c:181-189 | lists print between their brackets, errors as `Error: ` then the message, symbols verbatim, numbers as the canonical numeral (no leading zero, no `-0`) that reads back to the number |
| Printer.PrintCells | main.c:172-177 | the children's texts joined by single spaces |
| Printer.PrintCellsEnds | main.c:172-177 | the children's text opens with the first child's and closes with the last child's, so no separator precedes the first or follows the last |
| Printer.PrintCellsSnoc | main.c:170-179 | appending a child appends one space and its text, so separators sit only between neighbours |
| Printer.PrintExpr | main.c:170-179 | the bracket-and-space loop produces the opening bracket, the children separated by single spaces with none trailing, and the closing bracket |
| Printer.PrintValue | main.c:181-189 | printing through the loop agrees with Print on every value |
| Scenarios.Addition | main.c:246-278 | `(+ 1 2 3)` evaluates to 6 |
| Scenarios.Negation | main.c:256-258 | `(- 5)` evaluates to -5 |
| Scenarios.DivisionByZero | main.c:266-271 | `(/ 1 0)` evaluates to the division error value |
| Scenarios.Division | main.c:266-272 | `(/ -7 2)` evaluates to -3, truncated toward zero |
| Scenarios.UnknownOperator | main.c:286-288 | `(** 2 3)` evaluates to "Unknown function!" |
| Scenarios.HeadAndTail | main.c:197-217 | `(head {1 2 3})` is `{1}` and `(tail {1 2 3})` is `{2 3}` |
| Scenarios.JoinTwo | main.c:233-244 | `(join {1 2} {3})` is `{1 2 3}` |
| Scenarios.NonNumberOperand | main.c:247-252 | `(+ 1 {2})` is "Cannot operate on non-number" |
| Scenarios.NestedError | main.c:293-302 | `(+ (/ 1 0) 5)` is the division error |
| Scenarios.OnePlusTwo | main.c:246-278 | `(+ 1 2)` evaluates to 3 |
| Scenarios.EvalQuoted | main.c:224-231 | `(eval {+ 1 2})` evaluates to 3 |
| Scenarios.EvalListOfNumbers | main.c:308-312 | `(eval (list 1 2 3))` is "S-expression does not start with symbol!" |
| Scenarios.PrintList | main.c:170-179 | `{1 2 3}` prints with single spaces and no trailing space |
| Scenarios.PrintEmpty | main.c:170-179 | the empty S-expression prints as `()` |
| Scenarios.PrintAtoms | main.c:184 | -5 prints as `-5` |
| Scenarios.PrintError | main.c:183 | the division error prints as `Error: Division by zero!` |
| Scenarios.PrintSymbol | main.c:185 | the symbol `head` prints as `head` |

## Left out

- Reading (`lval_read`, `lval_read_num`, main.c:126-166) depends on the mpc parse tree and on `strtol`/`errno`; the model takes a built `Lval` tree. `Decimal.ParseInt` only models base-10 conversion of a numeral, as the partner of the printer.
- The REPL `main` (main.c:328-370) and `lval_println` (main.c:191-193) are readline, grammar setup and stdout I/O.
- Memory management: `lval_new` and the value constructors (main.c:39-77) are the datatype constructors; `lval_free` (main.c:100-114), `malloc`, `realloc` and `memmove` have no counterpart under value semantics.
- Builtins.Step: computes on unbounded integers. Overflow of `long` in `+ - *`, negating `LONG_MIN` and `LONG_MIN / -1` are undefined behaviour in C and are not modelled.
- Builtins.Op: requires at least one argument. `builtin_op` pops cell 0 unconditionally, and the evaluator only calls it with one or more arguments.
- Builtins.JoinArgs: requires at least one argument, for the same reason as `Op`.
- Evaluator.Builtin: requires at least one argument. `lval_eval_sexpr` reaches the dispatcher only with two or more cells, one of which is the head.
- The dispatcher's `strstr("+-/*", func)` test is modelled literally as a substring test. Symbols such as `+-` or the empty string therefore reach the arithmetic fold, although the grammar (main.c:340) never produces them.
- `head` answers "passed too many arguments!" also for zero arguments, as the C code does; the evaluator never calls it with zero.

## Findings

| source | as written | input that shows it | evidently intended | confidence | as-written member | corrected member |
|---|---|---|---|---|---|---|
| main.c:298-302 | `lval_take(v, i)` frees `v`, its result (the error) is dropped, and the loop goes on reading the freed `v` | `((/ 1 0))`: the only child evaluates to "Division by zero!"; read as if the freed list were intact, the scan removes it and the expression continues as `()` | `return lval_take(v, i);`, so the first erroneous child becomes the result | not executed; the read after `free` is undefined behaviour, and the as-written member models it as reading the list as it was | Evaluator.ScanAsWritten | Evaluator.EvalSExpr |

`Evaluator.ScanAsWrittenDropsLoneError` proves that under the as-written scan a
lone error leaves no error behind, while the intended scan finds it.
`Evaluator.ScanAsWrittenKeepsNextError` shows that of two adjacent errors the
second survives. `Evaluator.EvalErrorPropagates` proves the intended behaviour
of `Evaluator.EvalSExpr`: the first erroneous child is the result.

=== FILE: arith.dfy ===
/** C integer division on `long`: the quotient is truncated toward zero,
    unlike Dafny's Euclidean `/`. */
module Arith {

  function Abs(x: int): (r: nat)
    ensures r == x || r == -x
  {
    if x < 0 then -x else x
  }

  /** C's `a / b`: truncated division. The remainder `a - q * b` takes the
      sign of the dividend and is smaller in magnitude than the divisor, which
      determines `q` uniquely (CDivUnique). */
  function CDiv(a: int, b: int): (q: int)
    requires b != 0
    ensures a >= 0 ==> 0 <= a - q * b < Abs(b)
    ensures a < 0 ==> 0 <= q * b - a < Abs(b)
  {
    var m := Abs(a) / Abs(b);
    EuclidNonNegative(Abs(a), Abs(b));
    if a >= 0 && b > 0 then m
    else if a < 0 && b < 0 then
      assert m * b == -(m * Abs(b));
      m
    else if a >= 0 then
      assert -m * b == m * Abs(b);
      -m
    else
      assert -m * b == -(m * Abs(b));
      -m
  }

  /** On non-negative operands Dafny's `/` is the truncated quotient. */
  lemma EuclidNonNegative(x: nat, y: nat)
    requires y > 0
    ensures 0 <= x - (x / y) * y < y
  {
  }

  /** Any quotient whose remainder meets CDiv's sign and magnitude
      conditions is CDiv: truncated division is uniquely determined. */
  lemma {:induction false} CDivUnique(a: int, b: int, q: int)
    requires b != 0
    requires a >= 0 ==> 0 <= a - q * b < Abs(b)
    requires a < 0 ==> 0 <= q * b - a < Abs(b)
    ensures q == CDiv(a, b)
  {
    var p := CDiv(a, b);
    var d := p - q;
    assert d * b == p * b - q * b;
    if d != 0 {
      MulAtLeast(d, b);
    }
  }

  /** A non-zero multiple of `b` is at least `b` in magnitude. */
  lemma {:induction false} MulAtLeast(d: int, b: int)
    requires d != 0 && b != 0
    ensures Abs(d * b) >= Abs(b)
    decreases Abs(d)
  {
    if d > 1 {
      MulAtLeast(d - 1, b);
      assert d * b == (d - 1) * b + b;
    } else if d < -1 {
      MulAtLeast(d + 1, b);
      assert d * b == (d + 1) * b - b;
    }
  }

  /** Closed form of CDiv: the quotient of the magnitudes, negated when the
      operands' signs differ. */
  lemma CDivSign(a: int, b: int)
    requires b != 0
    ensures CDiv(a, b) == if (a < 0) == (b < 0) then Abs(a) / Abs(b) else -(Abs(a) / Abs(b))
    ensures Abs(CDiv(a, b)) == Abs(a) / Abs(b)
  {
  }

  /** Truncating division never grows the dividend's magnitude. */
  lemma CDivBound(a: int, b: int)
    requires b != 0
    ensures Abs(CDiv(a, b)) <= Abs(a)
  {
    CDivSign(a, b);
    DivAtMost(Abs(a), Abs(b));
  }

  lemma DivAtMost(x: nat, y: nat)
    requires y > 0
    ensures x / y <= x
  {
    var q := x / y;
    EuclidNonNegative(x, y);
    if q != 0 {
      MulAtLeast(y, q);
      assert y * q == q * y;
    }
  }

  /** Magnitude and sign of a product. */
  lemma AbsMul(b: int, c: int)
    ensures Abs(b * c) == Abs(b) * Abs(c)
    ensures b * c < 0 <==> (b != 0 && c != 0 && (b < 0) != (c < 0))
  {
    if b < 0 && c < 0 {
      assert b * c == Abs(b) * Abs(c);
    } else if b < 0 {
      assert b * c == -(Abs(b) * Abs(c));
    } else if c < 0 {
      assert b * c == -(Abs(b) * Abs(c));
    }
  }

  /** Euclidean division of naturals is determined by its remainder bound. */
  lemma DivUnique(x: int, d: int, q: int, r: int)
    requires d > 0 && 0 <= r < d && x == q * d + r
    ensures x / d == q
  {
    var q' := x / d;
    var r' := x % d;
    assert x == q' * d + r';
    assert (q - q') * d == r' - r;
    if q != q' {
      MulAtLeast(q - q', d);
    }
  }

  /** Dividing twice by naturals is dividing once by their product. */
  lemma NatDivDiv(x: nat, y: nat, z: nat)
    requires y > 0 && z > 0
    ensures x / y / z == x / (y * z)
  {
    var q1, r1 := x / y, x % y;
    var q2, r2 := q1 / z, q1 % z;
    assert x == q1 * y + r1;
    assert q1 == q2 * z + r2;
    assert x == q2 * (y * z) + (r2 * y + r1) by {
      assert q1 * y == q2 * z * y + r2 * y;
      assert q2 * z * y == q2 * (y * z);
    }
    assert r2 * y <= (z - 1) * y;
    assert (z - 1) * y == y * z - y;
    DivUnique(x, y * z, q2, r2 * y + r1);
  }

  /** Truncating division twice is truncating division by the product: the
      left-to-right `/` of several divisors divides by their product. */
  lemma {:induction false} CDivCDiv(a: int, b: int, c: int)
    requires b != 0 && c != 0
    ensures b * c != 0 && CDiv(CDiv(a, b), c) == CDiv(a, b * c)
  {
    AbsMul(b, c);
    CDivSign(a, b);
    var q1 := CDiv(a, b);
    var m := Abs(a) / Abs(b);
    CDivSign(q1, c);
    CDivSign(a, b * c);
    NatDivDiv(Abs(a), Abs(b), Abs(c));
    var k := Abs(a) / (Abs(b) * Abs(c));
    assert m / Abs(c) == k;
    if k != 0 {
      assert m != 0;
      assert q1 < 0 <==> (a < 0) != (b < 0);
    }
  }

  /** Truncation and Euclidean division disagree on a negative dividend. */
  lemma CDivExamples()
    ensures CDiv(-7, 2) == -3 && -7 / 2 == -4
    ensures CDiv(7, -2) == -3
    ensures CDiv(-7, -2) == 3
    ensures CDiv(6, 3) == 2
  {
  }
}

=== FILE: builtins.dfy ===
/** The builtins of main.c that do not re-enter the evaluator: `head`,
    `tail`, `list`, `join` and the arithmetic fold `+ - * /`. Each receives
    the evaluated argument list (the S-expression left after the function
    symbol is popped), checks it first and answers an error value when a
    check fails. */
module Builtins {
  import opened Values
  import opened Cells
  import opened Arith

  const HeadArity := "Function 'head' passed too many arguments!"
  const HeadType := "Function 'head' passed incorrect types!"
  const HeadEmpty := "Function 'head' passed {}!"
  const TailArity := "Function 'tail' passed too many arguments!"
  const TailType := "Function 'tail' passed incorrect types!"
  const TailEmpty := "Function 'tail' passed {}!"
  const JoinType := "Function 'join' passed incorrect types!"
  const NonNumber := "Cannot operate on non-number"
  const DivZero := "Division by zero!"

  // ---------------------------------------------------------------- head, tail

  /** The `while (v->count > 1) lval_free(lval_pop(v, 1))` loop of `head`:
      drop the second cell until only the first remains. */
  function KeepFirst(v: Lval): (r: Lval)
    requires v.IsList() && |v.cells| >= 1
    ensures r.IsList() && r.SExpr? == v.SExpr?
    ensures r.cells == [v.cells[0]]
    decreases |v.cells|
  {
    if |v.cells| == 1 then v else KeepFirst(Pop(v, 1).1)
  }

  /** `builtin_head`: the checks come in the order arity, type, emptiness,
      each with its own message; on success the Q-expression keeps only its
      first element. */
  function Head(a: seq<Lval>): (r: Lval)
    ensures |a| != 1 ==> r == Err(HeadArity)
    ensures |a| == 1 && !a[0].QExpr? ==> r == Err(HeadType)
    ensures |a| == 1 && a[0] == QExpr([]) ==> r == Err(HeadEmpty)
    ensures |a| == 1 && a[0].QExpr? && a[0].cells != [] ==>
      r == QExpr([a[0].cells[0]])
    ensures Size(r) <= 1 + SizeSeq(a)
  {
    if |a| != 1 then Err(HeadArity)
    else if !a[0].QExpr? then Err(HeadType)
    else if |a[0].cells| == 0 then Err(HeadEmpty)
    else
      var v := Take(SExpr(a), 0);
      var r := KeepFirst(v);
      SizeOfElement(v.cells, 0);
      assert SizeSeq(r.cells) == Size(v.cells[0]) + SizeSeq(r.cells[1..]);
      assert SizeSeq(a) == Size(v) + SizeSeq(a[1..]);
      r
  }

  /** `builtin_tail`: same checks as `head`, with its own messages; on
      success the first element is removed and the rest keep their order. */
  function Tail(a: seq<Lval>): (r: Lval)
    ensures |a| != 1 ==> r == Err(TailArity)
    ensures |a| == 1 && !a[0].QExpr? ==> r == Err(TailType)
    ensures |a| == 1 && a[0] == QExpr([]) ==> r == Err(TailEmpty)
    ensures |a| == 1 && a[0].QExpr? && a[0].cells != [] ==>
      r.QExpr? && |r.cells| == |a[0].cells| - 1 &&
      forall j :: 0 <= j < |r.cells| ==> r.cells[j] == a[0].cells[j + 1]
    ensures Size(r) <= 1 + SizeSeq(a)
  {
    if |a| != 1 then Err(TailArity)
    else if !a[0].QExpr? then Err(TailType)
    else if |a[0].cells| == 0 then Err(TailEmpty)
    else
      var v := Take(SExpr(a), 0);
      var r := Pop(v, 0).1;
      assert r.cells == v.cells[1..];
      SizeSeqConcat(v.cells[..1], v.cells[1..]);
      assert v.cells == v.cells[..1] + v.cells[1..];
      r
  }

  /** Head and tail split a non-empty Q-expression: joining them gives it back. */
  lemma HeadTailSplit(q: Lval)
    requires q.QExpr? && q.cells != []
    ensures Head([q]).cells + Tail([q]).cells == q.cells
    ensures JoinArgs([Head([q]), Tail([q])]) == q
  {
    assert Tail([q]).cells == q.cells[1..];
    assert Concat([Tail([q])]) == Tail([q]).cells;
  }

  // ---------------------------------------------------------------- list

  /** `builtin_list`: only the tag changes, from S-expression to
      Q-expression; the cells are kept as they are. */
  function List(a: seq<Lval>): (r: Lval)
    ensures r.QExpr? && r.cells == a
    ensures Size(r) == 1 + SizeSeq(a)
  {
    QExpr(a)
  }

  // ---------------------------------------------------------------- join

  predicate AllQExpr(a: seq<Lval>) {
    forall i :: 0 <= i < |a| ==> a[i].QExpr?
  }

  /** Reference meaning of `join`: the cells of every argument, in argument order. */
  function Concat(a: seq<Lval>): seq<Lval>
    requires AllQExpr(a)
  {
    if |a| == 0 then [] else a[0].cells + Concat(a[1..])
  }

  /** The `while (a->count) x = lval_join(x, lval_pop(a, 0))` loop of
      `builtin_join`: fold Join over the remaining arguments, left to right. */
  function JoinFrom(x: Lval, rest: seq<Lval>): (r: Lval)
    requires x.QExpr? && AllQExpr(rest)
    ensures r.QExpr? && r.cells == x.cells + Concat(rest)
    decreases |rest|
  {
    if |rest| == 0 then x
    else
      var (y, rest') := Pop(SExpr(rest), 0);
      assert rest'.cells == rest[1..];
      JoinFrom(Join(x, y), rest'.cells)
  }

  /** `builtin_join`: every argument must be a Q-expression; the result is
      the first argument extended by the others' cells. The evaluator
      always passes at least one argument, and the C code pops cell 0
      without checking. */
  function JoinArgs(a: seq<Lval>): (r: Lval)
    requires |a| >= 1
    ensures AllQExpr(a) ==> r.QExpr? && r.cells == Concat(a)
    ensures !AllQExpr(a) ==> r == Err(JoinType)
  {
    if !AllQExpr(a) then Err(JoinType)
    else
      var (x, rest) := Pop(SExpr(a), 0);
      assert rest.cells == a[1..];
      JoinFrom(x, rest.cells)
  }

  /** A join never grows the tree: it drops one list node per argument but one. */
  lemma {:induction false} ConcatSize(a: seq<Lval>)
    requires AllQExpr(a)
    ensures SizeSeq(Concat(a)) + |a| == SizeSeq(a)
    decreases |a|
  {
    if |a| > 0 {
      ConcatSize(a[1..]);
      SizeSeqConcat(a[0].cells, Concat(a[1..]));
    }
  }

  // ---------------------------------------------------------------- + - * /

  predicate AllNum(a: seq<Lval>) {
    forall i :: 0 <= i < |a| ==> a[i].Num?
  }

  /** The numbers carried by an all-number argument list. */
  function Nums(a: seq<Lval>): (ns: seq<int>)
    requires AllNum(a)
    ensures |ns| == |a|
    ensures forall i :: 0 <= i < |a| ==> ns[i] == a[i].n
  {
    if |a| == 0 then [] else [a[0].n] + Nums(a[1..])
  }

  /** One step of the fold: `x->num op= y->num`. An operator string other
      than the four leaves the accumulator unchanged, as the four `strcmp`
      tests of the loop body then all fail. */
  function Step(op: string, x: int, y: int): (r: int)
    requires op == "/" ==> y != 0
    ensures op == "/" ==> Abs(r) == Abs(x) / Abs(y)
    ensures op == "/" ==> Abs(r) <= Abs(x)
    ensures op == "/" && r != 0 ==> (r < 0 <==> (x < 0) != (y < 0))
    ensures op !in {"+", "-", "*", "/"} ==> r == x
  {
    if op == "+" then x + y
    else if op == "-" then x - y
    else if op == "*" then x * y
    else if op == "/" then
      CDivSign(x, y);
      CDivBound(x, y);
      CDiv(x, y)
    else x
  }

  /** The `while (a->count > 0)` loop of `builtin_op`: fold the remaining
      numbers into the accumulator, left to right; a zero divisor ends the
      loop with an error. */
  function Fold(op: string, x: int, ys: seq<int>): (r: Lval)
    ensures r.Num? || r == Err(DivZero)
    decreases |ys|
  {
    if |ys| == 0 then Num(x)
    else if op == "/" && ys[0] == 0 then Err(DivZero)
    else Fold(op, Step(op, x, ys[0]), ys[1..])
  }

  /** `builtin_op`: every argument must be a number; a lone argument to `-`
      is negated; otherwise the other arguments are folded into the first.
      The evaluator always passes at least one argument. */
  function Op(a: seq<Lval>, op: string): (r: Lval)
    requires |a| >= 1
    ensures !AllNum(a) ==> r == Err(NonNumber)
    ensures AllNum(a) && op == "-" && |a| == 1 ==> r == Num(-a[0].n)
    ensures r.Num? || r == Err(NonNumber) || r == Err(DivZero)
  {
    if !AllNum(a) then Err(NonNumber)
    else
      var (x, rest) := Pop(SExpr(a), 0);
      if op == "-" && |rest.cells| == 0 then Num(-x.n)
      else
        assert rest.cells == a[1..];
        Fold(op, x.n, Nums(rest.cells))
  }

  // ------------------------------------------------ reference arithmetic

  function Sum(ys: seq<int>): int {
    if |ys| == 0 then 0 else ys[0] + Sum(ys[1..])
  }

  function Product(ys: seq<int>): int {
    if |ys| == 0 then 1 else ys[0] * Product(ys[1..])
  }

  /** Folding `+` adds every number to the accumulator. */
  lemma {:induction false} FoldAdd(x: int, ys: seq<int>)
    ensures Fold("+", x, ys) == Num(x + Sum(ys))
    decreases |ys|
  {
    if |ys| > 0 {
      FoldAdd(x + ys[0], ys[1..]);
    }
  }

  /** Folding `-` subtracts every number from the accumulator. */
  lemma {:induction false} FoldSub(x: int, ys: seq<int>)
    ensures Fold("-", x, ys) == Num(x - Sum(ys))
    decreases |ys|
  {
    if |ys| > 0 {
      FoldSub(x - ys[0], ys[1..]);
    }
  }

  /** Folding `*` multiplies the accumulator by every number. */
  lemma {:induction false} FoldMul(x: int, ys: seq<int>)
    ensures Fold("*", x, ys) == Num(x * Product(ys))
    decreases |ys|
  {
    if |ys| > 0 {
      FoldMul(x * ys[0], ys[1..]);
      assert x * ys[0] * Product(ys[1..]) == x * (ys[0] * Product(ys[1..]));
    }
  }

  /** Folding `/` fails exactly when some divisor is zero. */
  lemma {:induction false} FoldDivZero(x: int, ys: seq<int>)
    ensures Fold("/", x, ys) == Err(DivZero) <==> 0 in ys
    decreases |ys|
  {
    if |ys| > 0 && ys[0] != 0 {
      FoldDivZero(CDiv(x, ys[0]), ys[1..]);
      assert 0 in ys <==> 0 in ys[1..];
    }
  }

  /** Folding `/` without a zero divisor divides by the product of the
      divisors, truncating toward zero. */
  lemma {:induction false} FoldDiv(x: int, ys: seq<int>)
    requires 0 !in ys
    ensures Product(ys) != 0
    ensures Fold("/", x, ys) == Num(CDiv(x, Product(ys)))
    decreases |ys|
  {
    if |ys| == 0 {
      CDivSign(x, 1);
    } else {
      assert 0 !in ys[1..] by {
        assert forall k :: 0 <= k < |ys[1..]| ==> ys[1..][k] == ys[k + 1];
      }
      FoldDiv(CDiv(x, ys[0]), ys[1..]);
      CDivCDiv(x, ys[0], Product(ys[1..]));
    }
  }

  /** Any other operator string leaves the first number as the result. */
  lemma {:induction false} FoldOther(op: string, x: int, ys: seq<int>)
    requires op !in {"+", "-", "*", "/"}
    ensures Fold(op, x, ys) == Num(x)
    decreases |ys|
  {
    if |ys| > 0 {
      FoldOther(op, x, ys[1..]);
    }
  }

  /** Apart from negation, every operator folds the rest into the first number. */
  lemma OpIsFold(a: seq<Lval>, op: string)
    requires |a| >= 1 && AllNum(a)
    requires op != "-" || |a| > 1
    ensures Op(a, op) == Fold(op, a[0].n, Nums(a)[1..])
  {
    assert Nums(a[1..]) == Nums(a)[1..];
    assert a[1..] == Pop(SExpr(a), 0).1.cells;
  }

  /** `+` on numbers is their sum. */
  lemma OpAdd(a: seq<Lval>)
    requires |a| >= 1 && AllNum(a)
    ensures Op(a, "+") == Num(Sum(Nums(a)))
  {
    OpIsFold(a, "+");
    FoldAdd(a[0].n, Nums(a)[1..]);
  }

  /** `*` on numbers is their product. */
  lemma OpMul(a: seq<Lval>)
    requires |a| >= 1 && AllNum(a)
    ensures Op(a, "*") == Num(Product(Nums(a)))
  {
    OpIsFold(a, "*");
    FoldMul(a[0].n, Nums(a)[1..]);
  }

  /** `-` on two or more numbers is the first minus the sum of the rest. */
  lemma OpSub(a: seq<Lval>)
    requires |a| > 1 && AllNum(a)
    ensures Op(a, "-") == Num(a[0].n - Sum(Nums(a)[1..]))
  {
    OpIsFold(a, "-");
    FoldSub(a[0].n, Nums(a)[1..]);
  }

  /** `/` on numbers fails exactly when a divisor (any argument but the first) is zero. */
  lemma OpDiv(a: seq<Lval>)
    requires |a| >= 1 && AllNum(a)
    ensures Op(a, "/") == Err(DivZero) <==> exists i :: 1 <= i < |a| && a[i] == Num(0)
  {
    var ns := Nums(a);
    OpIsFold(a, "/");
    FoldDivZero(a[0].n, ns[1..]);
    if 0 in ns[1..] {
      var k :| 0 <= k < |ns[1..]| && ns[1..][k] == 0;
      assert a[k + 1] == Num(0);
    }
    if exists i :: 1 <= i < |a| && a[i] == Num(0) {
      var i :| 1 <= i < |a| && a[i] == Num(0);
      assert ns[1..][i - 1] == 0;
    }
  }

  /** `/` on numbers without a zero divisor divides the first by the product
      of the others, truncating toward zero. */
  lemma OpDivValue(a: seq<Lval>)
    requires |a| >= 1 && AllNum(a)
    requires forall i :: 1 <= i < |a| ==> a[i].n != 0
    ensures Product(Nums(a)[1..]) != 0
    ensures Op(a, "/") == Num(CDiv(a[0].n, Product(Nums(a)[1..])))
  {
    var ns := Nums(a);
    OpIsFold(a, "/");
    assert 0 !in ns[1..] by {
      assert forall k :: 0 <= k < |ns[1..]| ==> ns[1..][k] == a[k + 1].n;
    }
    FoldDiv(a[0].n, ns[1..]);
  }
}

=== FILE: cells.dfy ===
/** The cell-list operations of main.c: `lval_add`, `lval_pop`, `lval_take`
    and `lval_join`. Under value semantics the `realloc`/`memmove`/`free`
    plumbing disappears and each operation returns the new container. */
module Cells {
  import opened Values

  /** `lval_add`: append `x` as the last cell of the list `v`. */
  function Add(v: Lval, x: Lval): (r: Lval)
    requires v.IsList()
    ensures r.IsList() && r.SExpr? == v.SExpr?
    ensures |r.cells| == |v.cells| + 1
    ensures r.cells[|v.cells|] == x
    ensures forall j :: 0 <= j < |v.cells| ==> r.cells[j] == v.cells[j]
  {
    v.(cells := v.cells + [x])
  }

  /** `lval_pop`: remove cell `i` of `v`; returns the removed cell and the
      shortened container. */
  function Pop(v: Lval, i: nat): (r: (Lval, Lval))
    requires v.IsList() && i < |v.cells|
    ensures r.0 == v.cells[i]
    ensures r.1.IsList() && r.1.SExpr? == v.SExpr?
    ensures |r.1.cells| == |v.cells| - 1
    ensures forall j :: 0 <= j < i ==> r.1.cells[j] == v.cells[j]
    ensures forall j :: i <= j < |r.1.cells| ==> r.1.cells[j] == v.cells[j + 1]
  {
    (v.cells[i], v.(cells := v.cells[..i] + v.cells[i + 1..]))
  }

  /** `lval_take`: pop cell `i` and consume the container. */
  function Take(v: Lval, i: nat): (x: Lval)
    requires v.IsList() && i < |v.cells|
    ensures x == v.cells[i]
  {
    Pop(v, i).0
  }

  /** `lval_join`: move every cell of `y`, front first, to the end of `x`
      (the `while (y->count)` loop, one pop and one add per step). */
  function Join(x: Lval, y: Lval): (r: Lval)
    requires x.IsList() && y.IsList()
    ensures r.IsList() && r.SExpr? == x.SExpr?
    ensures r.cells == x.cells + y.cells
    decreases |y.cells|
  {
    if |y.cells| == 0 then x
    else
      var p := Pop(y, 0);
      var x' := Add(x, p.0);
      assert p.1.cells == y.cells[1..];
      assert x'.cells + p.1.cells == x.cells + y.cells;
      Join(x', p.1)
  }

  /** Popping the cell just added gives back the cell and the original list. */
  lemma AddThenPopLast(v: Lval, x: Lval)
    requires v.IsList()
    ensures Pop(Add(v, x), |v.cells|) == (x, v)
  {
    var (y, rest) := Pop(Add(v, x), |v.cells|);
    assert rest.cells == v.cells;
  }

  /** Putting the popped cell back at its index restores the list: pop loses
      nothing and keeps the other cells in order. */
  lemma PopThenReinsert(v: Lval, i: nat)
    requires v.IsList() && i < |v.cells|
    ensures var (x, rest) := Pop(v, i);
      rest.cells[..i] + [x] + rest.cells[i..] == v.cells
  {
    var (x, rest) := Pop(v, i);
    assert rest.cells[..i] + [x] + rest.cells[i..] == v.cells;
  }
}

=== FILE: evaluator.dfy ===
/** The tree-walking evaluator of main.c: `lval_eval`, `lval_eval_sexpr`,
    the dispatcher `builtin` and the re-entrant `builtin_eval`. There is no
    environment in this revision: symbols evaluate to themselves and only
    the head of an S-expression is looked at as a function name.

    Termination: each function of the recursive group decreases the pair
    (tree size, rank). `eval` re-enters the evaluator on an argument that
    is itself the result of an evaluation, so the group proves that
    evaluation never grows the tree (Size(Eval(v)) <= Size(v)). */
module Evaluator {
  import opened Values
  import opened Cells
  import opened Builtins

  const NotSymbol := "S-expression does not start with symbol!"
  const UnknownFunction := "Unknown function!"
  const EvalArity := "Function 'eval' passed too many arguments!"
  const EvalType := "Function 'eval' passed incorrect types!"

  /** The shapes evaluation can produce: anything but a non-empty S-expression. */
  predicate IsNormal(v: Lval) {
    !v.SExpr? || v.cells == []
  }

  // ------------------------------------------------------------- dispatch

  /** `strstr(s, p) != NULL`: `p` occurs somewhere in `s` (the empty string
      occurs everywhere). */
  predicate IsSubstring(p: string, s: string)
    decreases |s|
  {
    p <= s || (|s| > 0 && IsSubstring(p, s[1..]))
  }

  /** `builtin`: dispatch on the head symbol's text. The arithmetic test is
      a `strstr` substring test against the text of the four operators. The
      evaluator only calls it with at least one argument. */
  function Builtin(a: seq<Lval>, func: string): (r: Lval)
    requires |a| >= 1
    ensures Size(r) <= 1 + SizeSeq(a)
    ensures IsNormal(r)
    decreases SizeSeq(a), 4
  {
    if func == "list" then List(a)
    else if func == "head" then Head(a)
    else if func == "tail" then Tail(a)
    else if func == "join" then
      var r := JoinArgs(a);
      if AllQExpr(a) then
        ConcatSize(a);
        r
      else r
    else if func == "eval" then BuiltinEval(a)
    else if IsSubstring(func, "+-/*") then Op(a, func)
    else Err(UnknownFunction)
  }

  /** `builtin_eval`: exactly one Q-expression, re-tagged as an S-expression
      and evaluated. */
  function BuiltinEval(a: seq<Lval>): (r: Lval)
    ensures |a| != 1 ==> r == Err(EvalArity)
    ensures |a| == 1 && !a[0].QExpr? ==> r == Err(EvalType)
    ensures Size(r) <= SizeSeq(a) || Size(r) == 1
    ensures IsNormal(r)
    decreases SizeSeq(a), 3
  {
    if |a| != 1 then Err(EvalArity)
    else if !a[0].QExpr? then Err(EvalType)
    else
      var x := Take(SExpr(a), 0);
      assert SizeSeq(a) == Size(x) + SizeSeq(a[1..]);
      Eval(SExpr(x.cells))
  }

  // ------------------------------------------------------------- evaluation

  /** `lval_eval`: S-expressions are reduced, every other value (numbers,
      errors, symbols, Q-expressions) evaluates to itself. */
  function Eval(v: Lval): (r: Lval)
    ensures !v.SExpr? ==> r == v
    ensures Size(r) <= Size(v)
    ensures IsNormal(r)
    decreases Size(v), 2
  {
    if v.SExpr? then EvalSExpr(v.cells) else v
  }

  /** The first `for` loop of `lval_eval_sexpr`: evaluate every child. */
  function EvalAll(cs: seq<Lval>): (r: seq<Lval>)
    ensures |r| == |cs|
    ensures SizeSeq(r) <= SizeSeq(cs)
    ensures forall i :: 0 <= i < |r| ==> IsNormal(r[i])
    decreases SizeSeq(cs), 3
  {
    if |cs| == 0 then []
    else
      var r := [Eval(cs[0])] + EvalAll(cs[1..]);
      assert r[1..] == EvalAll(cs[1..]);
      r
  }

  /** The second `for` loop of `lval_eval_sexpr`: the index of the first
      error among the evaluated children, scanning from `i`. */
  function FirstErrorFrom(ev: seq<Lval>, i: nat): (r: Option<nat>)
    requires i <= |ev|
    ensures r.Some? ==>
              && i <= r.value < |ev|
              && ev[r.value].Err?
              && forall j :: i <= j < r.value ==> !ev[j].Err?
    ensures r.None? ==> forall j :: i <= j < |ev| ==> !ev[j].Err?
    decreases |ev| - i
  {
    if i == |ev| then None
    else if ev[i].Err? then Some(i)
    else FirstErrorFrom(ev, i + 1)
  }

  /** `lval_eval_sexpr`. The error branch returns the first erroneous child,
      `return lval_take(v, i)`. The code at main.c:298-302 instead drops
      `lval_take`'s result and keeps scanning the freed list; ScanAsWritten
      models that reading. */
  function EvalSExpr(cs: seq<Lval>): (r: Lval)
    ensures Size(r) <= 1 + SizeSeq(cs)
    ensures IsNormal(r)
    decreases 1 + SizeSeq(cs), 1
  {
    var ev := EvalAll(cs);
    match FirstErrorFrom(ev, 0)
    case Some(i) =>
      SizeOfElement(ev, i);
      Take(SExpr(ev), i)
    case None =>
      if |ev| == 0 then SExpr(ev)
      else if |ev| == 1 then
        SizeOfElement(ev, 0);
        Take(SExpr(ev), 0)
      else
        var (f, rest) := Pop(SExpr(ev), 0);
        assert rest.cells == ev[1..];
        if !f.Sym? then Err(NotSymbol)
        else Builtin(rest.cells, f.name)
  }

  // ------------------------------------------------------------- as written

  /** The error scan of main.c:298-302 as written, reading the container as
      if `lval_take` had not freed it: an erroneous cell is removed, its
      value is dropped, and the scan goes on at the next index, which skips
      the cell that moved into the removed one's place. */
  function ScanAsWritten(cs: seq<Lval>, i: nat): (r: seq<Lval>)
    ensures |r| <= |cs|
    ensures forall j :: 0 <= j < |r| ==> r[j] in cs
    ensures forall j :: 0 <= j < |cs| && !cs[j].Err? ==> cs[j] in r
    ensures i <= |cs| ==> i <= |r| && r[..i] == cs[..i]
    decreases |cs|, |cs| - i
  {
    if i >= |cs| then cs
    else if cs[i].Err? then
      var rest := Pop(SExpr(cs), i).1.cells;
      assert rest == cs[..i] + cs[i + 1..];
      assert forall j :: 0 <= j < |rest| ==> rest[j] in cs;
      assert forall j :: 0 <= j < |cs| && j != i ==> cs[j] in rest;
      assert rest[..i] == cs[..i];
      ScanAsWritten(rest, i + 1)
    else ScanAsWritten(cs, i + 1)
  }

  // ------------------------------------------------------------- properties

  /** Children are evaluated one by one, each on its own. */
  lemma {:induction false} EvalAllPointwise(cs: seq<Lval>, i: nat)
    requires i < |cs|
    ensures EvalAll(cs)[i] == Eval(cs[i])
    decreases i
  {
    if i > 0 {
      EvalAllPointwise(cs[1..], i - 1);
    }
  }

  /** Error propagation: when the `i`-th child is the first to evaluate to an
      error, the whole S-expression evaluates to that error. */
  lemma EvalErrorPropagates(cs: seq<Lval>, i: nat)
    requires i < |cs| && Eval(cs[i]).Err?
    requires forall j :: 0 <= j < i ==> !Eval(cs[j]).Err?
    ensures Eval(SExpr(cs)) == Eval(cs[i])
  {
    var ev := EvalAll(cs);
    EvalAllPointwise(cs, i);
    forall j | 0 <= j < i
      ensures !ev[j].Err?
    {
      EvalAllPointwise(cs, j);
    }
    assert FirstErrorFrom(ev, 0) == Some(i);
  }

  /** When no child evaluates to an error, the error scan finds nothing. */
  lemma NoErrorScan(cs: seq<Lval>)
    requires forall j :: 0 <= j < |cs| ==> !Eval(cs[j]).Err?
    ensures FirstErrorFrom(EvalAll(cs), 0) == None
  {
    var ev := EvalAll(cs);
    forall j | 0 <= j < |cs|
      ensures !ev[j].Err?
    {
      EvalAllPointwise(cs, j);
    }
  }

  /** An S-expression none of whose children evaluates to an error is
      reduced by its shape: the empty one is itself, a singleton is its
      evaluated child, a longer one needs a symbol at its head. */
  lemma EvalShapes(cs: seq<Lval>)
    requires forall j :: 0 <= j < |cs| ==> !Eval(cs[j]).Err?
    ensures |cs| == 0 ==> Eval(SExpr(cs)) == SExpr([])
    ensures |cs| == 1 ==> Eval(SExpr(cs)) == Eval(cs[0])
    ensures |cs| >= 2 && !Eval(cs[0]).Sym? ==> Eval(SExpr(cs)) == Err(NotSymbol)
  {
    NoErrorScan(cs);
    if |cs| > 0 {
      EvalAllPointwise(cs, 0);
    }
  }

  /** A longer S-expression with a symbol at its head and no erroneous
      child applies the builtin that symbol names to the other evaluated
      children. */
  lemma EvalCall(cs: seq<Lval>)
    requires |cs| >= 2 && Eval(cs[0]).Sym?
    requires forall j :: 0 <= j < |cs| ==> !Eval(cs[j]).Err?
    ensures Eval(SExpr(cs)) == Builtin(EvalAll(cs)[1..], Eval(cs[0]).name)
  {
    NoErrorScan(cs);
    EvalAllPointwise(cs, 0);
    var ev := EvalAll(cs);
    var (f, rest) := Pop(SExpr(ev), 0);
    assert rest.cells == ev[1..];
    assert EvalSExpr(cs) == Builtin(rest.cells, f.name);
  }

  /** Evaluation reaches a normal form in one step: evaluating a result
      again changes nothing. */
  lemma EvalIdempotent(v: Lval)
    ensures Eval(Eval(v)) == Eval(v)
  {
    var r := Eval(v);
    if r.SExpr? {
      assert r.cells == [];
      assert EvalAll([]) == [];
    }
  }

  /** Normal forms are fixed points of evaluation, child by child. */
  lemma {:induction false} EvalAllNormal(cs: seq<Lval>)
    requires forall j :: 0 <= j < |cs| ==> IsNormal(cs[j])
    ensures EvalAll(cs) == cs
    decreases |cs|
  {
    if |cs| > 0 {
      EvalAllNormal(cs[1..]);
      EvalIdempotentOnNormal(cs[0]);
    }
  }

  /** A normal form evaluates to itself. */
  lemma EvalIdempotentOnNormal(v: Lval)
    requires IsNormal(v)
    ensures Eval(v) == v
  {
    if v.SExpr? {
      assert EvalAll([]) == [];
    }
  }

  /** `eval` undoes `list`: quoting evaluated arguments and evaluating the
      quotation is evaluating the S-expression of those arguments. */
  lemma ListThenEval(args: seq<Lval>)
    requires |args| >= 1
    ensures Builtin([Builtin(args, "list")], "eval") == Eval(SExpr(args))
  {
    var q := Builtin(args, "list");
    assert q == List(args);
    BuiltinEvalMeaning(q);
  }

  /** A call whose head is a symbol and whose arguments are already values
      (normal forms other than errors) applies the named builtin to them. */
  lemma EvalCallOnValues(f: string, args: seq<Lval>)
    requires |args| >= 1
    requires forall j :: 0 <= j < |args| ==> IsNormal(args[j]) && !args[j].Err?
    ensures Eval(SExpr([Sym(f)] + args)) == Builtin(args, f)
  {
    var cs := [Sym(f)] + args;
    EvalAllNormal(cs);
    EvalCall(cs);
    assert cs[1..] == args;
  }

  /** `eval` on one Q-expression evaluates its cells as an S-expression. */
  lemma BuiltinEvalMeaning(q: Lval)
    requires q.QExpr?
    ensures BuiltinEval([q]) == Eval(SExpr(q.cells))
    ensures Builtin([q], "eval") == Eval(SExpr(q.cells))
  {
    assert Take(SExpr([q]), 0) == q;
  }

  /** The recursive test agrees with the positional meaning of `strstr`:
      `p` is a prefix of some suffix of `s`. */
  lemma {:induction false} SubstringAt(p: string, s: string)
    ensures IsSubstring(p, s) <==> exists i :: 0 <= i <= |s| && p <= s[i..]
    decreases |s|
  {
    assert s[0..] == s;
    if p <= s {
    } else if |s| > 0 {
      SubstringAt(p, s[1..]);
      if IsSubstring(p, s) {
        var i :| 0 <= i <= |s| - 1 && p <= s[1..][i..];
        assert s[1..][i..] == s[i + 1..];
      }
      if exists i :: 0 <= i <= |s| && p <= s[i..] {
        var i :| 0 <= i <= |s| && p <= s[i..];
        assert s[1..][i - 1..] == s[i..];
      }
    }
  }

  /** Every character of a substring occurs in the string. */
  lemma {:induction false} SubstringChars(p: string, s: string)
    requires IsSubstring(p, s)
    ensures forall k :: 0 <= k < |p| ==> p[k] in s
    decreases |s|
  {
    if p <= s {
      forall k | 0 <= k < |p|
        ensures p[k] in s
      {
        assert p[k] == s[k];
      }
    } else {
      SubstringChars(p, s[1..]);
      forall k | 0 <= k < |p|
        ensures p[k] in s
      {
        assert p[k] in s[1..];
      }
    }
  }

  /** A head symbol that is none of the five names is an unknown function
      exactly when it does not occur in the operator text (the four operator
      characters in the order plus, minus, slash, star); every
      symbol that does occur goes to the arithmetic builtin. */
  lemma DispatchExact(a: seq<Lval>, f: string)
    requires |a| >= 1
    requires f !in {"list", "head", "tail", "join", "eval"}
    ensures Builtin(a, f) == Err(UnknownFunction) <==> !IsSubstring(f, "+-/*")
    ensures IsSubstring(f, "+-/*") ==> Builtin(a, f) == Op(a, f)
  {
  }

  /** In particular, a symbol holding a character other than `+ - / *` is
      an unknown function. */
  lemma DispatchUnknown(a: seq<Lval>, f: string, k: nat)
    requires |a| >= 1
    requires f !in {"list", "head", "tail", "join", "eval"}
    requires k < |f| && f[k] !in "+-/*"
    ensures Builtin(a, f) == Err(UnknownFunction)
  {
    DispatchExact(a, f);
    if IsSubstring(f, "+-/*") {
      SubstringChars(f, "+-/*");
    }
  }

  /** Symbols made only of operator characters can still miss the operator
      text: `**`, `*+` and two slashes do not occur in it. */
  lemma NonOperatorSubstrings()
    ensures !IsSubstring("**", "+-/*")
    ensures !IsSubstring("*+", "+-/*")
    ensures !IsSubstring("//", "+-/*")
  {
    assert "+-/*"[1..] == "-/*" && "-/*"[1..] == "/*" && "/*"[1..] == "*" && "*"[1..] == "";
    forall p | p in {"**", "*+", "//"}
      ensures !IsSubstring(p, "+-/*")
    {
      assert p[1] in "*+/" && p[0] in "*/";
      assert !(p <= "+-/*") && !(p <= "-/*") by {
        assert p[0] != '+' && p[0] != '-';
      }
      assert !(p <= "/*") by {
        assert p[..2] != "/*" by { assert p[0] != '/' || p[1] != '*'; }
      }
      assert !IsSubstring(p, "");
      assert !IsSubstring(p, "*");
      assert !IsSubstring(p, "/*");
      assert !IsSubstring(p, "-/*");
    }
  }

  /** The operator symbols of the grammar reach the arithmetic fold; so do
      the other substrings of the operator text, such as "+-", which fold with no
      operator and answer the first number. */
  lemma DispatchArithmetic(a: seq<Lval>)
    requires |a| >= 1
    ensures Builtin(a, "+") == Op(a, "+")
    ensures Builtin(a, "-") == Op(a, "-")
    ensures Builtin(a, "*") == Op(a, "*")
    ensures Builtin(a, "/") == Op(a, "/")
    ensures AllNum(a) ==> Builtin(a, "+-") == Num(a[0].n)
  {
    OperatorSubstrings();
    if AllNum(a) {
      OpIsFold(a, "+-");
      FoldOther("+-", a[0].n, Nums(a)[1..]);
    }
  }

  lemma OperatorSubstrings()
    ensures IsSubstring("+", "+-/*") && IsSubstring("+-", "+-/*")
    ensures IsSubstring("-", "+-/*") && IsSubstring("/", "+-/*")
    ensures IsSubstring("*", "+-/*")
  {
    assert "+" <= "+-/*";
    assert "+-" <= "+-/*";
    assert "+-/*"[1..] == "-/*" && "-" <= "-/*";
    assert "-/*"[1..] == "/*" && "/" <= "/*";
    assert "/*"[1..] == "*" && "*" <= "*";
    assert IsSubstring("*", "/*");
    assert IsSubstring("*", "-/*");
    assert IsSubstring("/", "-/*");
  }

  // ------------------------------------------------ the as-written scan

  /** With no error from index `i` on, the as-written scan changes nothing. */
  lemma {:induction false} ScanAsWrittenNoError(cs: seq<Lval>, i: nat)
    requires forall j :: i <= j < |cs| ==> !cs[j].Err?
    ensures ScanAsWritten(cs, i) == cs
    decreases |cs| - i
  {
    if i < |cs| {
      ScanAsWrittenNoError(cs, i + 1);
    }
  }

  /** A lone error is removed by the as-written scan and nothing is
      returned in its place, whereas the intended scan (FirstErrorFrom, as
      EvalSExpr uses it) finds it. `((/ 1 0))` thus continues as `()`. */
  lemma {:induction false} ScanAsWrittenDropsLoneError(cs: seq<Lval>, k: nat)
    requires k < |cs| && cs[k].Err?
    requires forall j :: 0 <= j < |cs| && j != k ==> !cs[j].Err?
    ensures ScanAsWritten(cs, 0) == cs[..k] + cs[k + 1..]
    ensures forall j :: 0 <= j < |ScanAsWritten(cs, 0)| ==> !ScanAsWritten(cs, 0)[j].Err?
    ensures FirstErrorFrom(cs, 0) == Some(k)
  {
    ScanLoneFrom(cs, 0, k);
    var r := cs[..k] + cs[k + 1..];
    forall j | 0 <= j < |r|
      ensures !r[j].Err?
    {
      if j < k { assert r[j] == cs[j]; } else { assert r[j] == cs[j + 1]; }
    }
  }

  lemma {:induction false} ScanLoneFrom(cs: seq<Lval>, i: nat, k: nat)
    requires i <= k < |cs| && cs[k].Err?
    requires forall j :: i <= j < |cs| && j != k ==> !cs[j].Err?
    ensures ScanAsWritten(cs, i) == cs[..k] + cs[k + 1..]
    decreases k - i
  {
    if i < k {
      ScanLoneFrom(cs, i + 1, k);
    } else {
      var rest := Pop(SExpr(cs), k).1.cells;
      assert rest == cs[..k] + cs[k + 1..];
      ScanAsWrittenNoError(rest, k + 1);
    }
  }

  /** Two adjacent errors: the as-written scan keeps the second one (it
      moved into the first one's slot, which the scan has passed), while the
      intended scan returns the first. */
  lemma ScanAsWrittenKeepsNextError()
    ensures ScanAsWritten([Err("a"), Err("b")], 0) == [Err("b")]
    ensures FirstErrorFrom([Err("a"), Err("b")], 0) == Some(0)
  {
  }
}

=== FILE: printer.dfy ===
/** Decimal text of a `long`, as `printf("%li")` writes it and as `strtol`
    with base 10 reads it back. */
module Decimal {

  predicate IsDigit(c: char) {
    '0' <= c <= '9'
  }

  function DigitChar(d: nat): (c: char)
    requires d < 10
    ensures IsDigit(c) && c as int - '0' as int == d
  {
    ('0' as int + d) as char
  }

  /** Decimal digits of a natural number, most significant first, with no
      leading zero. */
  function NatToString(n: nat): (s: string)
    ensures |s| >= 1
    ensures forall i :: 0 <= i < |s| ==> IsDigit(s[i])
    ensures n > 0 ==> s[0] != '0'
    ensures n == 0 ==> s == "0"
    decreases n
  {
    if n < 10 then [DigitChar(n)] else NatToString(n / 10) + [DigitChar(n % 10)]
  }

  /** `%li`: a minus sign in front of the digits of a negative number. */
  function IntToString(n: int): (s: string)
    ensures |s| >= 1
    ensures n < 0 <==> s[0] == '-'
    ensures IsCanonicalNumeral(s)
    ensures n == 0 ==> s == "0"
    ensures n != 0 ==> s[if n < 0 then 1 else 0] != '0'
  {
    if n < 0 then
      var s := "-" + NatToString(-n);
      assert s[1..] == NatToString(-n);
      s
    else NatToString(n)
  }

  function DigitValue(c: char): (d: nat)
    requires IsDigit(c)
    ensures d < 10 && DigitChar(d) == c
  {
    c as int - '0' as int
  }

  /** Value of a string of decimal digits. */
  function ParseNat(s: string): nat
    requires forall i :: 0 <= i < |s| ==> IsDigit(s[i])
  {
    if |s| == 0 then 0
    else ParseNat(s[..|s| - 1]) * 10 + DigitValue(s[|s| - 1])
  }

  /** Text of the form `-?[0-9]+`: an optional minus sign, then at least
      one digit. */
  predicate IsNumeral(s: string) {
    var start := if |s| > 0 && s[0] == '-' then 1 else 0;
    start < |s| && forall i :: start <= i < |s| ==> IsDigit(s[i])
  }

  /** The one text `%li` writes for a number: a numeral whose first digit is
      not `0` unless it is `0` itself, so neither `05` nor `-0`. */
  predicate IsCanonicalNumeral(s: string) {
    IsNumeral(s) &&
    var start := if s[0] == '-' then 1 else 0;
    s[start] != '0' || s == "0"
  }

  /** Base-10 `strtol` on a numeral. */
  function ParseInt(s: string): (n: int)
    requires IsNumeral(s)
  {
    if s[0] == '-' then -(ParseNat(s[1..]) as int) else ParseNat(s)
  }

  lemma {:induction false} ParseNatToString(n: nat)
    ensures ParseNat(NatToString(n)) == n
    decreases n
  {
    var s := NatToString(n);
    if n >= 10 {
      ParseNatToString(n / 10);
      assert s[..|s| - 1] == NatToString(n / 10);
    }
  }

  /** Digits that do not start with `0` denote at least 1, and at least 10
      when there are two or more of them. */
  lemma {:induction false} ParseNatLeading(d: string)
    requires |d| >= 1 && d[0] != '0'
    requires forall i :: 0 <= i < |d| ==> IsDigit(d[i])
    ensures ParseNat(d) >= 1
    ensures |d| >= 2 ==> ParseNat(d) >= 10
    decreases |d|
  {
    if |d| >= 2 {
      var p := d[..|d| - 1];
      assert p[0] == d[0];
      ParseNatLeading(p);
    } else {
      assert DigitChar(DigitValue(d[0])) == d[0];
    }
  }

  /** Printing the value of canonical digits gives those digits back. */
  lemma {:induction false} NatToStringParse(d: string)
    requires |d| >= 1 && (d[0] != '0' || d == "0")
    requires forall i :: 0 <= i < |d| ==> IsDigit(d[i])
    ensures NatToString(ParseNat(d)) == d
    decreases |d|
  {
    var n := ParseNat(d);
    if |d| == 1 {
      assert ParseNat(d[..0]) == 0;
      assert n == DigitValue(d[0]);
    } else {
      var p := d[..|d| - 1];
      var c := d[|d| - 1];
      assert p[0] == d[0];
      ParseNatLeading(d);
      NatToStringParse(p);
      assert n == ParseNat(p) * 10 + DigitValue(c);
      assert n / 10 == ParseNat(p) && n % 10 == DigitValue(c);
      assert d == p + [c];
    }
  }

  /** A canonical numeral is the printed text of its value: `%li` has
      exactly one spelling for each number. */
  lemma CanonicalNumeralUnique(s: string)
    requires IsCanonicalNumeral(s)
    ensures IntToString(ParseInt(s)) == s
  {
    if s[0] == '-' {
      var d := s[1..];
      assert d[0] == s[1];
      ParseNatLeading(d);
      NatToStringParse(d);
      assert s == "-" + d;
    } else {
      NatToStringParse(s);
    }
  }

  /** Reading back a printed number gives the number. */
  lemma ParseIntToString(n: int)
    ensures ParseInt(IntToString(n)) == n
  {
    var s := IntToString(n);
    if n < 0 {
      assert s[1..] == NatToString(-n);
      ParseNatToString(-n);
    } else {
      ParseNatToString(n);
    }
  }
}

/** `lval_print` and `lval_print_expr` of main.c as string-producing
    functions: numbers in decimal, symbols verbatim, errors after
    `Error: `, lists between their brackets with one space between
    children and none after the last. */
module Printer {
  import opened Values
  import opened Decimal

  function Print(v: Lval): (s: string)
    ensures v.SExpr? ==> |s| >= 2 && s[0] == '(' && s[|s| - 1] == ')'
    ensures v.QExpr? ==> |s| >= 2 && s[0] == '{' && s[|s| - 1] == '}'
    ensures v.Err? ==> |s| >= 7 && s[..7] == "Error: " && s[7..] == v.msg
    ensures v.Num? ==> IsCanonicalNumeral(s) && ParseInt(s) == v.n
    ensures v.Sym? ==> s == v.name
    decreases Size(v), 1
  {
    match v
    case Err(m) => "Error: " + m
    case Num(n) =>
      ParseIntToString(n);
      IntToString(n)
    case Sym(name) => name
    case SExpr(cs) => "(" + PrintCells(cs) + ")"
    case QExpr(cs) => "{" + PrintCells(cs) + "}"
  }

  /** The children of a list, separated by single spaces. */
  function PrintCells(cs: seq<Lval>): string
    decreases SizeSeq(cs), 2
  {
    if |cs| == 0 then ""
    else if |cs| == 1 then Print(cs[0])
    else Print(cs[0]) + " " + PrintCells(cs[1..])
  }

  /** The text of the children opens with the first child's text and closes
      with the last child's: no separator before the first or after the last. */
  lemma {:induction false} PrintCellsEnds(cs: seq<Lval>)
    requires |cs| >= 1
    ensures Print(cs[0]) <= PrintCells(cs)
    ensures var s, last := PrintCells(cs), Print(cs[|cs| - 1]);
      |last| <= |s| && s[|s| - |last|..] == last
    decreases |cs|
  {
    if |cs| > 1 {
      PrintCellsEnds(cs[1..]);
      var s, t, last := PrintCells(cs), PrintCells(cs[1..]), Print(cs[|cs| - 1]);
      assert cs[1..][|cs[1..]| - 1] == cs[|cs| - 1];
      assert s == Print(cs[0]) + " " + t;
      assert s[|s| - |last|..] == t[|t| - |last|..];
    }
  }

  /** Appending a child appends a space and its text, so the separators
      are exactly the spaces between neighbours. */
  lemma {:induction false} PrintCellsSnoc(cs: seq<Lval>, x: Lval)
    ensures PrintCells(cs + [x]) ==
      if |cs| == 0 then Print(x) else PrintCells(cs) + " " + Print(x)
    decreases |cs|
  {
    if |cs| == 1 {
      assert (cs + [x])[1..] == [x];
    } else if |cs| > 1 {
      assert (cs + [x])[1..] == cs[1..] + [x];
      PrintCellsSnoc(cs[1..], x);
    } else {
      assert cs + [x] == [x];
    }
  }

  /** One turn of the print loop: the text of the first `i` children, a
      separator when there were any, then child `i`. */
  lemma PrintPrefixStep(cs: seq<Lval>, i: nat)
    requires i < |cs|
    ensures PrintCells(cs[..i]) + (if 0 < i then " " else "") + Print(cs[i]) ==
      PrintCells(cs[..i + 1])
  {
    PrintCellsSnoc(cs[..i], cs[i]);
    assert cs[..i + 1] == cs[..i] + [cs[i]];
  }

  /** `lval_print_expr`: the C loop writes the opening bracket, then each
      child followed by a space unless it is the last, then the closing
      bracket. */
  method PrintExpr(v: Lval, open: char, close: char) returns (s: string)
    requires v.IsList()
    ensures s == [open] + PrintCells(v.cells) + [close]
  {
    var cs := v.cells;
    s := [open];
    var i := 0;
    while i < |cs|
      invariant 0 <= i <= |cs|
      invariant s == [open] + PrintCells(cs[..i]) + (if 0 < i < |cs| then " " else "")
    {
      var sep := if 0 < i then " " else "";
      PrintPrefixStep(cs, i);
      assert s == [open] + (PrintCells(cs[..i]) + sep);
      s := s + Print(cs[i]);
      assert s == [open] + PrintCells(cs[..i + 1]);
      if i != |cs| - 1 {
        s := s + " ";
      }
      i := i + 1;
    }
    assert cs[..i] == cs;
    s := s + [close];
  }

  /** `lval_print`, with the list cases going through PrintExpr. */
  method PrintValue(v: Lval) returns (s: string)
    ensures s == Print(v)
  {
    match v
    case SExpr(_) => s := PrintExpr(v, '(', ')');
    case QExpr(_) => s := PrintExpr(v, '{', '}');
    case _ => s := Print(v);
  }
}

=== FILE: scenarios.dfy ===
/** Whole-expression evaluations of the kind the interpreter's prompt shows,
    each worked through the evaluator and the printer. */
module Scenarios {
  import opened Values
  import opened Builtins
  import opened Evaluator
  import opened Printer
  import opened Decimal
  import opened Arith

  /** `(+ 1 2 3)` is 6. */
  lemma Addition()
    ensures Eval(SExpr([Sym("+"), Num(1), Num(2), Num(3)])) == Num(6)
  {
    var args := [Num(1), Num(2), Num(3)];
    assert [Sym("+"), Num(1), Num(2), Num(3)] == [Sym("+")] + args;
    EvalCallOnValues("+", args);
    DispatchArithmetic(args);
    OpAdd(args);
    assert Nums(args) == [1, 2, 3];
    assert Sum([1, 2, 3]) == 6 by {
      assert [1, 2, 3][1..] == [2, 3] && [2, 3][1..] == [3];
    }
  }

  /** `(- 5)` is -5. */
  lemma Negation()
    ensures Eval(SExpr([Sym("-"), Num(5)])) == Num(-5)
  {
    assert [Sym("-"), Num(5)] == [Sym("-")] + [Num(5)];
    EvalCallOnValues("-", [Num(5)]);
    DispatchArithmetic([Num(5)]);
  }

  /** `(/ 1 0)` is the division error, as a value. */
  lemma DivisionByZero()
    ensures Eval(SExpr([Sym("/"), Num(1), Num(0)])) == Err(DivZero)
  {
    OperatorSubstrings();
    EvalCall([Sym("/"), Num(1), Num(0)]);
  }

  /** `(/ -7 2)` is -3: division truncates toward zero. */
  lemma Division()
    ensures Eval(SExpr([Sym("/"), Num(-7), Num(2)])) == Num(-3)
  {
    var args := [Num(-7), Num(2)];
    assert [Sym("/"), Num(-7), Num(2)] == [Sym("/")] + args;
    EvalCallOnValues("/", args);
    DispatchArithmetic(args);
    OpDivValue(args);
    assert Nums(args)[1..] == [2];
    CDivExamples();
  }

  /** `(** 2 3)` is an unknown function, although `*` is an operator. */
  lemma UnknownOperator()
    ensures Eval(SExpr([Sym("**"), Num(2), Num(3)])) == Err(UnknownFunction)
  {
    var args := [Num(2), Num(3)];
    assert [Sym("**"), Num(2), Num(3)] == [Sym("**")] + args;
    EvalCallOnValues("**", args);
    NonOperatorSubstrings();
    DispatchExact(args, "**");
  }

  /** `(head {1 2 3})` is `{1}` and `(tail {1 2 3})` is `{2 3}`. */
  lemma HeadAndTail()
    ensures Eval(SExpr([Sym("head"), QExpr([Num(1), Num(2), Num(3)])])) == QExpr([Num(1)])
    ensures Eval(SExpr([Sym("tail"), QExpr([Num(1), Num(2), Num(3)])])) == QExpr([Num(2), Num(3)])
  {
    EvalCall([Sym("head"), QExpr([Num(1), Num(2), Num(3)])]);
    EvalCall([Sym("tail"), QExpr([Num(1), Num(2), Num(3)])]);
  }

  /** `(join {1 2} {3})` is `{1 2 3}`. */
  lemma JoinTwo()
    ensures Eval(SExpr([Sym("join"), QExpr([Num(1), Num(2)]), QExpr([Num(3)])])) ==
      QExpr([Num(1), Num(2), Num(3)])
  {
    EvalCall([Sym("join"), QExpr([Num(1), Num(2)]), QExpr([Num(3)])]);
  }

  /** `(+ 1 {2})` refuses the Q-expression. */
  lemma NonNumberOperand()
    ensures Eval(SExpr([Sym("+"), Num(1), QExpr([Num(2)])])) == Err(NonNumber)
  {
    OperatorSubstrings();
    EvalCall([Sym("+"), Num(1), QExpr([Num(2)])]);
  }

  /** `(+ (/ 1 0) 5)` is the division error: the error child becomes the result. */
  lemma NestedError()
    ensures Eval(SExpr([Sym("+"), SExpr([Sym("/"), Num(1), Num(0)]), Num(5)])) == Err(DivZero)
  {
    DivisionByZero();
    EvalErrorPropagates([Sym("+"), SExpr([Sym("/"), Num(1), Num(0)]), Num(5)], 1);
  }

  /** `(+ 1 2)` is 3. */
  lemma OnePlusTwo()
    ensures Eval(SExpr([Sym("+"), Num(1), Num(2)])) == Num(3)
  {
    var args := [Num(1), Num(2)];
    assert [Sym("+"), Num(1), Num(2)] == [Sym("+")] + args;
    EvalCallOnValues("+", args);
    DispatchArithmetic(args);
    OpAdd(args);
    assert Nums(args) == [1, 2];
    assert Sum([1, 2]) == 3 by {
      assert [1, 2][1..] == [2];
    }
  }

  /** `(eval {+ 1 2})` is 3. */
  lemma EvalQuoted()
    ensures Eval(SExpr([Sym("eval"), QExpr([Sym("+"), Num(1), Num(2)])])) == Num(3)
  {
    var q := QExpr([Sym("+"), Num(1), Num(2)]);
    assert [Sym("eval"), q] == [Sym("eval")] + [q];
    EvalCallOnValues("eval", [q]);
    BuiltinEvalMeaning(q);
    OnePlusTwo();
  }

  /** `(eval (list 1 2 3))`: numbers cannot head a call. */
  lemma EvalListOfNumbers()
    ensures Eval(SExpr([Sym("eval"), SExpr([Sym("list"), Num(1), Num(2), Num(3)])])) == Err(NotSymbol)
  {
    EvalCall([Sym("list"), Num(1), Num(2), Num(3)]);
    EvalCall([Sym("eval"), SExpr([Sym("list"), Num(1), Num(2), Num(3)])]);
    EvalShapes([Num(1), Num(2), Num(3)]);
  }

  /** `{1 2 3}` prints with single spaces between the numbers. */
  lemma PrintList()
    ensures Print(QExpr([Num(1), Num(2), Num(3)])) == "{1 2 3}"
  {
    var cs := [Num(1), Num(2), Num(3)];
    assert Print(Num(1)) == "1" && Print(Num(2)) == "2" && Print(Num(3)) == "3";
    assert PrintCells(cs[2..]) == "3";
    assert PrintCells(cs[1..]) == "2 3";
    assert PrintCells(cs) == "1 2 3";
  }

  /** The empty S-expression prints as `()`. */
  lemma PrintEmpty()
    ensures Print(SExpr([])) == "()"
  {
  }

  /** A negative number prints with its sign. */
  lemma PrintAtoms()
    ensures Print(Num(-5)) == "-5"
  {
    assert DigitChar(5) == '5';
    assert NatToString(5) == "5";
    assert IntToString(-5) == "-" + NatToString(5);
  }

  /** An error prints after `Error: `. */
  lemma PrintError()
    ensures Print(Err(DivZero)) == "Error: Division by zero!"
  {
  }

  /** A symbol prints verbatim. */
  lemma PrintSymbol()
    ensures Print(Sym("head")) == "head"
  {
  }
}

=== FILE: values.dfy ===
/** The runtime values of the interpreter (the `lval` tagged union of
    main.c) and the tree-size measure that bounds evaluation. */
module Values {

  /** A value is one of five variants. The two list variants carry the
      ordered children of an S-expression (evaluated as a call) or a
      Q-expression (quoted data); in C they share the `count`/`cell` fields,
      here they share the `cells` destructor. */
  datatype Lval =
    | Err(msg: string)
    | Num(n: int)
    | Sym(name: string)
    | SExpr(cells: seq<Lval>)
    | QExpr(cells: seq<Lval>)
  {
    /** True of the two variants that own a cell list. */
    predicate IsList() {
      SExpr? || QExpr?
    }
  }

  datatype Option<T> = None | Some(value: T)

  /** Number of nodes of a value tree: one per value, lists included. */
  function Size(v: Lval): (n: nat)
    ensures n >= 1
  {
    match v
    case SExpr(cs) => 1 + SizeSeq(cs)
    case QExpr(cs) => 1 + SizeSeq(cs)
    case _ => 1
  }

  /** Total number of nodes of a sequence of value trees. */
  function SizeSeq(cs: seq<Lval>): nat
  {
    if |cs| == 0 then 0 else Size(cs[0]) + SizeSeq(cs[1..])
  }

  /** Every element of a sequence is no bigger than the whole sequence. */
  lemma {:induction false} SizeOfElement(cs: seq<Lval>, i: nat)
    requires i < |cs|
    ensures Size(cs[i]) <= SizeSeq(cs)
    ensures Size(cs[i]) < SizeSeq(cs) || |cs| == 1
    decreases i
  {
    if i > 0 {
      SizeOfElement(cs[1..], i - 1);
    } else if |cs| > 1 {
      assert SizeSeq(cs) == Size(cs[0]) + SizeSeq(cs[1..]);
      assert Size(cs[1]) >= 1;
      assert SizeSeq(cs[1..]) == Size(cs[1]) + SizeSeq(cs[2..]);
    }
  }

  /** Size is additive over concatenation. */
  lemma {:induction false} SizeSeqConcat(a: seq<Lval>, b: seq<Lval>)
    ensures SizeSeq(a + b) == SizeSeq(a) + SizeSeq(b)
    decreases |a|
  {
    if |a| > 0 {
      assert (a + b)[1..] == a[1..] + b;
      SizeSeqConcat(a[1..], b);
    } else {
      assert a + b == b;
    }
  }
}
